=== FILE: README.md ===
# RAG vector store and query pipeline, modelled in Dafny

This project models the retrieval-augmented-generation core of
`rag/rag01.py`: the local vector store `SimpleVectorDB` and the `rag_query`
step. The store has a lifecycle: construct, then `create_and_save` or `load`,
then `search`. `search` assembles hits from the index's `(distance, position)`
slots. `rag_query` joins the hit texts into a context, builds a fixed
two-message prompt and turns any generation failure into an apology answer.

The three foreign collaborators are function-valued fields of
`Collaborators.Oracles`, and every operation is a pure function of them:

- the sentence-embedding model (`embed`);
- the faiss `IndexFlatL2.search` answer for one query row (`knn`);
- the chat-completion call (`generate`).

Vectors and distances are carried as `real`s and are never computed on.

Files and modules:

| file | module | contents |
|---|---|---|
| results.dfy | `Results` | `Option`, failure-compatible `Result` |
| collaborators.dfy | `Collaborators` | vectors, `FlatIndex`, `Slot`, chat `Message`, `Completion`, `Oracles` |
| storage.dfy | `Storage` | the two persisted artifacts as two optional slots |
| vector_store.dfy | `VectorStore` | `VectorDB`, `New`, `CreateAndSave`, `Load`, `Search` and their properties |
| text.dfy | `Text` | Python `"\n".join` and `str.strip()`; `Split` undoes `Join` on separator-free parts |
| prompt.dfy | `Prompt` | the system instruction, the user-message framing and its parser |
| rag.dfy | `Rag` | `RagQuery` and its properties |
| scenario.dfy | `Scenario` | the script's five demo documents, run end to end with stand-in collaborators |

Modelling choices:

- **The store is a value.** `VectorDB` is `Unloaded(dimension, maybeIndex, documents)`
  or `Loaded(dimension, index, documents)`. The Python `is_loaded` flag is the
  variant, so a loaded store always has an index.
- **A mutating call returns a `Step`.** The `Step` holds the new store, the new
  disk and the outcome. This is needed because `create_and_save` replaces
  `self.index` (line 57) before `index.add` can raise (line 58). `search`
  changes nothing and returns a `Result`.
- **Ragged embeddings fail before anything changes.** `np.array(...).astype('float32')`
  (lines 55 and 100) raises on rows of unequal lengths. That happens before
  `create_and_save` replaces the index and before `search` reaches faiss.
  The model reports it as `RaggedEmbeddings`.
- **faiss's own refusals are part of `search`.** faiss's Python `search`
  wrapper refuses a query row whose width is not the index's dimension, and
  then a non-positive `k`. These surface as `DimensionMismatch` and `InvalidTopK`.
  After a `load`, the stored index's dimension can differ from the store's
  `dimension` field, and the check uses the index's.
- **Python list indexing is modelled exactly.** `self.documents[doc_idx]` accepts
  negative positions from `-len` to `-2` by wrapping from the end. Any other
  out-of-range position raises `IndexError`. So does a row of index slots
  shorter than `top_k`.
- **The `try` block covers more than the network call.** Its body can also fail
  on an empty `choices` list or on a `None` content. Both are caught by
  `except Exception`, and their Python error texts are modelled as constants.

Where the code falls short of what the store is meant to guarantee, the model follows the code:

- **The index and documents are not always the same size.** A loaded store is meant to hold one vector per document. The code does not
  keep this in two cases. `load` never compares the two artifacts' sizes
  (`LoadParallelIffArtifactsAgree`). A `create_and_save` whose `index.add` raises on a
  loaded store with at least one document leaves it loaded, with its old documents but an empty index
  (`FailedRebuildEmptiesIndex`).
- **An empty document list is rejected.** In the code the embedding of an empty batch has no column axis, so `index.add`
  raises before anything is written. The model reports this as
  `DimensionMismatch`.
- **`search` returns at most `len(documents)` hits only because of faiss.** This
  holds only when faiss reports each stored vector at most once per query. Ordering by
  ascending distance is likewise a faiss promise. Both are stated as
  hypotheses (`SearchAtMostDocuments`, `SearchKeepsNearestFirst`).

## Model

| member | source | states |
|---|---|---|
| `VectorStore.New` | rag/rag01.py:46-50 | a new store is unloaded, has no index and no documents, and keeps the requested dimension |
| `VectorStore.FreshStoreRefusesSearch` | rag/rag01.py:46-50 | searching a newly constructed store fails with `NotLoaded` |
| `VectorStore.CreateAndSave` | rag/rag01.py:52-67 | on success the store is loaded, its documents are the input, its index holds the embeddings in input order, and the disk holds exactly that index and those documents; it succeeds exactly when the embeddings are one or more rows of the store's dimension; on failure the disk is untouched; embeddings of unequal widths fail with `RaggedEmbeddings` and leave the store unchanged, and any other refusal fails with `DimensionMismatch` after the index has been replaced by an empty one, which is the only change |
| `VectorStore.CreateAndSaveBuildsParallelIndex` | rag/rag01.py:54-58 | with an embedding model of the store's dimension, building succeeds exactly when the document list is non-empty; it then indexes one vector of that dimension per document, in document order, and writes both artifacts |
| `VectorStore.FailedRebuildEmptiesIndex` | rag/rag01.py:57-58 | a rebuild whose rectangular embeddings `add` refuses leaves a loaded store loaded, with its old documents and an empty index, so for a store with at least one document, index and documents no longer match in size |
| `VectorStore.RaggedBuildChangesNothing` | rag/rag01.py:54-57 | embeddings of unequal widths make the build fail with `RaggedEmbeddings` before the index is replaced: store and disk are unchanged, so a parallel store stays parallel |
| `VectorStore.Load` | rag/rag01.py:73-89 | load fails with `FileNotFound` exactly when either artifact is missing, and then the store is unchanged; otherwise the store is loaded with the stored index and documents and keeps its dimension; the disk is never changed |
| `VectorStore.LoadParallelIffArtifactsAgree` | rag/rag01.py:84-89 | a loaded store has one vector per document exactly when the two artifacts agree in size, because load does not check this |
| `VectorStore.CreateThenLoadRoundTrip` | rag/rag01.py:52-89 | after a successful build, loading its artifacts into any store gives the same documents and index, and every search on the loaded store answers exactly as on the store that was built |
| `VectorStore.SearchRefusedUntilLoaded` | rag/rag01.py:94-96 | search fails with `NotLoaded` if and only if the store is not loaded |
| `VectorStore.Survivors` | rag/rag01.py:105-108 | the surviving slots are no more than the input slots, and a slot survives exactly when it appears in the input with a position other than `-1` |
| `VectorStore.SurvivorsKeepSlotOrder` | rag/rag01.py:104-108 | survivors are computed slot by slot: a single slot survives exactly when its position is not `-1`, and the survivors of a concatenation are those of each part, in order |
| `VectorStore.Resolve` | rag/rag01.py:109-111 | hit `j` has the text of the document at the `j`-th surviving slot's position and that slot's distance as its score |
| `VectorStore.Collect` | rag/rag01.py:104-111 | the result-assembly loop raises nothing but `IndexError`; what it returns is stated by `CollectBounds`, `CollectIsResolveOfSurvivors` and `CollectFailsExactly` |
| `VectorStore.CollectBounds` | rag/rag01.py:104-111 | the loop only appends to the hits gathered so far, at most one per remaining iteration, and every hit it appends carries the text of a stored document |
| `VectorStore.CollectIsResolveOfSurvivors` | rag/rag01.py:104-111 | when slots are present and in range, the result-assembly loop equals the reference description: filter out the `-1` slots, then look up each survivor's document |
| `VectorStore.CollectFailsExactly` | rag/rag01.py:105-109 | the loop raises exactly when it reaches a missing slot or a position Python cannot use to index the documents, and the error is then `IndexError` |
| `VectorStore.Search` | rag/rag01.py:94-113 | an unloaded store refuses with `NotLoaded`; a ragged query embedding fails with `RaggedEmbeddings`; faiss refuses a query row whose width is not the index's dimension (`DimensionMismatch`) and then a `top_k` below 1 (`InvalidTopK`); a successful search has at most `top_k` hits, each the text of a stored document |
| `VectorStore.MatchingEmbedderFitsQuery` | rag/rag01.py:99-102 | an embedding model of the index's own dimension always yields a query matrix the index accepts |
| `VectorStore.SearchAssemblesMatches` | rag/rag01.py:102-113 | on a loaded store that accepts the query, for a positive `top_k` and an index row of at least `top_k` slots, each `-1` or a valid document position, search succeeds with one hit per non-sentinel slot, in slot order; hit `j` is that slot's document and distance, and there are at most `top_k` hits |
| `VectorStore.SearchFailsExactly` | rag/rag01.py:102-109 | on a loaded store, search raises if and only if the query embedding is not one or more rows of the index's dimension (unequal widths: `RaggedEmbeddings`; a wrong width: `DimensionMismatch`; otherwise `top_k` below 1: `InvalidTopK`), or the index row is shorter than `top_k` or holds a position Python cannot index with (`IndexError`) |
| `VectorStore.SearchKeepsNearestFirst` | rag/rag01.py:102-111 | if the index returns its slots by ascending distance, the hits are ordered by ascending score |
| `VectorStore.SearchAtMostDocuments` | rag/rag01.py:102-111 | if the index reports each document at most once, a search returns at most as many hits as there are documents |
| `Storage.WriteIndex` | rag/rag01.py:61 | writing the index artifact stores that index and leaves the document artifact alone |
| `Storage.WriteDocuments` | rag/rag01.py:63-64 | writing the document artifact stores those documents and leaves the index artifact alone |
| `Storage.WritesReadBack` | rag/rag01.py:60-64 | after both writes, in either order, both artifacts exist and read back exactly what was written |
| `Rag.Texts` | rag/rag01.py:132 | the retrieved texts are the hits' texts, one per hit, in hit order |
| `Text.Join` | rag/rag01.py:133 | joining no texts gives the empty string and one text gives that text; otherwise the result starts with the first text, and every character of it is the separator or comes from one of the texts |
| `Text.JoinAppend` | rag/rag01.py:133 | joining one more text appends the separator and that text, whatever characters the texts contain; with the empty and single cases this fixes the join on every input |
| `Rag.ContextAppend` | rag/rag01.py:132-133 | when there is at least one earlier hit, the context (`ContextOf`, the newline join of the hit texts) of one more hit is the earlier context, a newline and that hit's text |
| `Text.SplitJoin` | rag/rag01.py:133 | the newline-joined context splits back into exactly the joined texts when there is at least one text and none contains the separator |
| `Text.JoinSplit` | rag/rag01.py:133 | joining the pieces of any split string gives the string back; with `SplitJoin`, `Split` and `Join` are inverse on lists of one or more separator-free parts |
| `Prompt.UserContent` | rag/rag01.py:138 | the user message is, in order and with nothing else, the information label, the context, the question label, the question and the answer label |
| `Prompt.Messages` | rag/rag01.py:136-139 | the prompt is two messages: the fixed system instruction with role `"system"`, then a `"user"` message that is exactly the information label, the context, the question label, the question and the answer label, in that order |
| `Prompt.UserContentRoundTrip` | rag/rag01.py:138 | when the context does not contain the question label, parsing the user message gives back the context and the question |
| `Text.Strip` | rag/rag01.py:153 | the stripped answer is the contiguous middle of the text between its first and last non-whitespace characters (Python `str.isspace` set); everything outside it is whitespace |
| `Text.StripFixesExactlyTrimmed` | rag/rag01.py:153 | stripping leaves a text unchanged if and only if it has no whitespace at either end |
| `Text.StripIdempotent` | rag/rag01.py:153 | stripping twice is the same as stripping once |
| `Rag.GenerationError` | rag/rag01.py:143-155 | the `try` body completes exactly when the call returns at least one choice whose content is not `None`; a call that raises contributes its own error text, an empty `choices` list the text of Python's list `IndexError`, and a `None` content the text of the `AttributeError` from `.strip()` |
| `Rag.AnswerFor` | rag/rag01.py:143-157 | if the call raises, or its result has no choices or a `None` content, the answer is the apology prefix followed by the error text; otherwise it is the first choice's content, stripped, with no whitespace at either end |
| `Rag.RagQuery` | rag/rag01.py:119-165 | the query fails only with the search's own error; a result echoes the question, sends the system instruction and the user message for its context and question, and its context holds only newlines and characters of stored documents |
| `Rag.RagQueryFailsOnlyWithSearch` | rag/rag01.py:129-165 | the query raises if and only if the search raises, and with the same error, whatever the chat model does |
| `Rag.RagQueryRefusedUntilLoaded` | rag/rag01.py:94-96 | a query on an unloaded store fails with `NotLoaded` |
| `Rag.GeneratedAnswerIsStripped` | rag/rag01.py:153 | when generation succeeds, the answer is the stripped first choice and stripping it again changes nothing |
| `Rag.RagQueryAssembles` | rag/rag01.py:129-165 | a successful query returns the question unchanged; its context is empty for no hits, the hit's text for one hit, and for more hits the context of all but the last, a newline and the last hit's text (so the hit texts joined by newlines in search order, whatever they contain); when no hit text contains a newline it also splits back into the hit texts; its messages are the prompt for that context and question, and, when the context does not contain the question label, they parse back to both; its answer comes from what the chat model returned for exactly those messages |
| `Rag.DefaultQueryUsesAtMostOneDocument` | rag/rag01.py:119-133 | with the default `top_k=1`, a successful query's context is empty or exactly one stored document |
| `Rag.GenerationFailureDegrades` | rag/rag01.py:143-157 | when generation fails the query still succeeds, and its answer is the non-empty apology prefix followed by the error text |
| `Scenario.DemoBuild` | rag/rag01.py:173-186 | building the store from the five demo documents succeeds, indexes five vectors and writes both artifacts |
| `Scenario.DemoSearch` | rag/rag01.py:104-113 | for index slots `(0.25, 1), (0.5, 2), (0.75, -1)`, searching the demo documents with `top_k=3` returns documents 1 and 2 with those scores |
| `Scenario.DemoRun` | rag/rag01.py:129-165 | in the same run, with a chat call that times out, the context is documents 1 and 2 joined by a newline and the answer is the apology followed by the timeout text |

## Left out

- The embedding model (rag/rag01.py:39, 54, 99). It is a foreign neural model over floats, so it is the `embed` oracle. Its shape promise is the hypothesis `EmbedsWithDimension`.
- faiss internals (rag/rag01.py:57-58, 84, 102). L2 distances are not computed. `index.search` is the `knn` oracle once faiss has accepted the call. The two refusals of faiss's Python `search` wrapper are modelled in `Search`: a query row whose width differs from the index's dimension, then `k <= 0`; the faiss sources are not part of this model. Two faiss promises enter only as hypotheses: nearest-first order and at most one report per stored vector. That the index row always has exactly `k` slots, padded with `-1`, is not assumed either: a shorter row is modelled as the loop's `IndexError`.
- Failures raised inside the embedding model (rag/rag01.py:54, 99), such as out-of-memory or a tokenizer error: `embed` is a total function, so `CreateAndSave` and `Search` never fail on account of `encode` itself; only the shape of what it returns is checked.
- `VectorStore.SearchKeepsNearestFirst`: only as strong as the nearest-first hypothesis about faiss, because that order is a library promise that is not visible in this code.
- `VectorStore.SearchAtMostDocuments`: only as strong as the one-report-per-vector hypothesis about faiss, for the same reason.
- The float32 conversion `astype('float32')` (rag/rag01.py:55, 100). Floating point is not modelled.
- The chat-completion client, the API-key check and the base URL (rag/rag01.py:24-32, 144-151). This is network I/O, so generation is the `generate` oracle. The model name and the sampling options (`max_tokens=200`, `temperature=0.7`, `top_p=0.8`) are passed to the oracle unchanged.
- The file formats (pickle, faiss binary) and `os.makedirs` / `os.path.exists` (rag/rag01.py:60-64, 74, 86-87). The disk is two optional slots, and a write always succeeds. Failing writes and unreadable or corrupt files are not modelled.
- Aliasing. `create_and_save` keeps a reference to the caller's list (rag/rag01.py:66). Immutable values cannot express later mutation through that alias.
- Negative `dimension` arguments to the constructor. The dimension is a `nat`.
- Printing and the exact texts of the raised exceptions (rag/rag01.py:38, 53, 69-71, 75-81, 83, 90-92, 96, 98, 142, 156). These are console output, and errors are modelled by kind.
- The interactive loop of the entry point (rag/rag01.py:181-208). It is console I/O. Its demo documents are used in `Scenario`.
- The other scripts: `mcp/functioncalling01.py`, `mcp/functioncalling02.py`, `mcp/functioncalling03.py`, `mcp/mcp01.py`, `mcp/意图理解.py` and `cuda01.py`. They are one-shot request/response scripts over network APIs or a GPU smoke test, and they contain no logic of the store or the pipeline.

=== FILE: collaborators.dfy ===
/** The three opaque collaborators of the RAG script, and the shapes of the
    values they exchange with it: the sentence-embedding model, the faiss
    flat L2 index search, and the OpenAI-compatible chat-completion call.
    Each collaborator is a function-valued field of `Oracles`, so every
    operation of the model is a pure function of the collaborators it uses.
    Floating-point vectors and distances are carried as `real`s and are
    never computed on. */
module Collaborators {
  import opened Results

  /** One embedding: a row of the float32 matrix handed to faiss. */
  type Vector = seq<real>

  /** `faiss.IndexFlatL2(dimension)` after `add`: its vectors in insertion
      order, so `|vectors|` is the index's `ntotal`. */
  datatype FlatIndex = FlatIndex(dimension: nat, vectors: seq<Vector>)

  /** The position faiss reports for a slot it could not fill. */
  const NoMatch: int := -1

  /** Slot `i` of one query row of `index.search`: `distances[0][i]` and
      `indices[0][i]`. */
  datatype Slot = Slot(distance: real, position: int)

  /** Chat roles used by the pipeline. */
  datatype Role = System | User

  /** The `"role"` string each role is sent as. */
  function RoleName(r: Role): string {
    match r
    case System => "system"
    case User => "user"
  }

  /** A `{"role": ..., "content": ...}` chat message. */
  datatype Message = Message(role: Role, content: string)

  /** The sampling options forwarded to the chat-completion call. */
  datatype Sampling = Sampling(maxTokens: nat, temperature: real, topP: real)

  /** One element of `completion.choices`; `content` may be `None`. */
  datatype Choice = Choice(content: Option<string>)

  /** What the chat-completion call does: it raises (transport or API error,
      carried as the text `str(e)` would give), or it returns the choices. */
  datatype Completion = Raised(detail: string) | Completed(choices: seq<Choice>)

  /** The collaborators, as pure functions.
      - `embed(texts)` is `embedding_model.encode(texts)`, one row per text;
      - `knn(index, queryRows, k)` is row 0 of `index.search(queryRows, k)`;
      - `generate(model, messages, sampling)` is the chat-completion call. */
  datatype Oracles = Oracles(
    embed: seq<string> -> seq<Vector>,
    knn: (FlatIndex, seq<Vector>, int) -> seq<Slot>,
    generate: (string, seq<Message>, Sampling) -> Completion)

  /** The embedding model's promise: one vector of length `dimension` per
      input text, in input order. */
  ghost predicate EmbedsWithDimension(embed: seq<string> -> seq<Vector>, dimension: nat) {
    forall texts: seq<string> ::
      |embed(texts)| == |texts| && forall row :: row in embed(texts) ==> |row| == dimension
  }
}

=== FILE: prompt.dfy ===
/** The two-message prompt `rag_query` sends to the chat model: a fixed
    system instruction, and a user message that frames the retrieved context
    and the question with fixed Chinese labels. The partner of the builder is
    a parser that recovers context and question from the user message; they
    round-trip whenever the context does not itself contain the question
    label. */
module Prompt {
  import opened Results
  import opened Collaborators

  /** The system instruction, verbatim. */
  const SystemInstruction: string :=
    "你是一个 helpful 的 AI 助手。请根据提供的信息回答问题。如果信息不足以回答，请说明原因，不要编造答案。"

  /** The label before the context ("information:"). */
  const InfoLabel: string := "信息：\n"

  /** The label between context and question ("question:"). */
  const QuestionLabel: string := "\n\n问题："

  /** The label after the question ("answer:"). */
  const AnswerLabel: string := "\n\n回答："

  /** The user message for a context and a question: the information label,
      the context, the question label, the question and the answer label, in
      that order and nothing else. */
  function UserContent(context: string, question: string): (content: string)
    ensures |content| == |InfoLabel| + |context| + |QuestionLabel| + |question| + |AnswerLabel|
    ensures content[..|InfoLabel|] == InfoLabel
    ensures content[|InfoLabel|..|InfoLabel| + |context|] == context
    ensures content[|InfoLabel| + |context|..|InfoLabel| + |context| + |QuestionLabel|] == QuestionLabel
    ensures content[|content| - |AnswerLabel| - |question|..|content| - |AnswerLabel|] == question
    ensures content[|content| - |AnswerLabel|..] == AnswerLabel
  {
    InfoLabel + context + QuestionLabel + question + AnswerLabel
  }

  /** The two messages, system first. */
  function Messages(context: string, question: string): (ms: seq<Message>)
    ensures |ms| == 2
    ensures ms[0].role == System && RoleName(ms[0].role) == "system" && ms[0].content == SystemInstruction
    ensures ms[1].role == User && RoleName(ms[1].role) == "user"
    ensures |ms[1].content| == |InfoLabel| + |context| + |QuestionLabel| + |question| + |AnswerLabel|
    ensures ms[1].content[..|InfoLabel|] == InfoLabel
    ensures ms[1].content[|InfoLabel|..|InfoLabel| + |context|] == context
    ensures ms[1].content[|InfoLabel| + |context|..|InfoLabel| + |context| + |QuestionLabel|] == QuestionLabel
    ensures ms[1].content[|ms[1].content| - |AnswerLabel| - |question|..|ms[1].content| - |AnswerLabel|] == question
    ensures ms[1].content[|ms[1].content| - |AnswerLabel|..] == AnswerLabel
  {
    [Message(System, SystemInstruction), Message(User, UserContent(context, question))]
  }

  /** `pattern` occurs in `s` starting at `i`. */
  predicate OccursAt(s: string, pattern: string, i: int) {
    0 <= i && i + |pattern| <= |s| && s[i..i + |pattern|] == pattern
  }

  /** The first position where `pattern` occurs in `s`, if any. */
  function FindFirst(s: string, pattern: string): (r: Option<nat>)
    ensures r.Some? ==> OccursAt(s, pattern, r.value)
    ensures r.Some? ==> forall j :: 0 <= j < r.value ==> !OccursAt(s, pattern, j)
    ensures r.None? ==> forall j :: !OccursAt(s, pattern, j)
  {
    if |s| < |pattern| then None
    else if s[..|pattern|] == pattern then Some(0)
    else
      var rest := FindFirst(s[1..], pattern);
      assert forall j :: 1 <= j && OccursAt(s, pattern, j) ==> OccursAt(s[1..], pattern, j - 1) by {
        forall j | 1 <= j && OccursAt(s, pattern, j)
          ensures OccursAt(s[1..], pattern, j - 1)
        {
          assert s[1..][j - 1..j - 1 + |pattern|] == s[j..j + |pattern|];
        }
      }
      match rest
      case None => None
      case Some(k) =>
        assert OccursAt(s, pattern, k + 1) by {
          assert s[k + 1..k + 1 + |pattern|] == s[1..][k..k + |pattern|];
        }
        Some(k + 1)
  }

  /** Recover `(context, question)` from a user message: strip the two
      outer labels and split at the first question label. */
  function ParseUserContent(content: string): Option<(string, string)> {
    if |content| < |InfoLabel| + |AnswerLabel| then None
    else if content[..|InfoLabel|] != InfoLabel then None
    else if content[|content| - |AnswerLabel|..] != AnswerLabel then None
    else
      var middle := content[|InfoLabel|..|content| - |AnswerLabel|];
      match FindFirst(middle, QuestionLabel)
      case None => None
      case Some(i) => Some((middle[..i], middle[i + |QuestionLabel|..]))
  }

  /** The question label cannot begin inside a context and run on into the
      label that follows it: no proper suffix of the label is a prefix of it. */
  lemma {:induction false} LabelNotStraddled(context: string, rest: string, j: int)
    requires |context| - |QuestionLabel| < j < |context|
    requires 0 <= j
    ensures !OccursAt(context + QuestionLabel + rest, QuestionLabel, j)
  {
    var s := context + QuestionLabel + rest;
    var w := s[j..j + |QuestionLabel|];
    var t := |context| - j;
    assert w[t] == s[|context|] == '\n';
    if t == 1 {
      assert w[2] == s[|context| + 1] == '\n';
      assert w[2] != QuestionLabel[2];
    } else {
      assert w[t] != QuestionLabel[t];
    }
  }

  /** The first question label in `context + QuestionLabel + question` is the
      one placed there, when the context contains none. */
  lemma FirstLabelAfterContext(context: string, question: string)
    requires forall j :: !OccursAt(context, QuestionLabel, j)
    ensures FindFirst(context + QuestionLabel + question, QuestionLabel) == Some(|context|)
  {
    var s := context + QuestionLabel + question;
    assert OccursAt(s, QuestionLabel, |context|) by {
      assert s[|context|..|context| + |QuestionLabel|] == QuestionLabel;
    }
    forall j | 0 <= j < |context|
      ensures !OccursAt(s, QuestionLabel, j)
    {
      if j + |QuestionLabel| <= |context| {
        assert s[j..j + |QuestionLabel|] == context[j..j + |QuestionLabel|];
        assert !OccursAt(context, QuestionLabel, j);
      } else {
        LabelNotStraddled(context, question, j);
      }
    }
  }

  /** The user message determines its context and question: parsing it gives
      back both, provided the context does not contain the question label. */
  lemma UserContentRoundTrip(context: string, question: string)
    requires forall j :: !OccursAt(context, QuestionLabel, j)
    ensures ParseUserContent(UserContent(context, question)) == Some((context, question))
  {
    var content := UserContent(context, question);
    var body := context + QuestionLabel + question;
    assert content == InfoLabel + body + AnswerLabel;
    assert content[..|InfoLabel|] == InfoLabel;
    assert content[|content| - |AnswerLabel|..] == AnswerLabel;
    assert content[|InfoLabel|..|content| - |AnswerLabel|] == body;
    FirstLabelAfterContext(context, question);
    assert body[..|context|] == context;
    assert body[|context| + |QuestionLabel|..] == question;
  }
}

=== FILE: rag.dfy ===
/** `rag_query` of rag/rag01.py: search the store for the question, join the
    hit texts into a context, build the two-message prompt, ask the chat
    model, and return question, context, messages and answer. A search
    failure propagates; a generation failure never does: it becomes an
    apology answer carrying the error text. */
module Rag {
  import opened Results
  import opened Collaborators
  import opened Text
  import opened VectorStore
  import opened Prompt

  /** `GENERATION_MODEL_NAME`, the default model name. */
  const DefaultModel: string := "qwen-plus"

  /** The fixed sampling options: `max_tokens=200, temperature=0.7, top_p=0.8`. */
  const QuerySampling: Sampling := Sampling(200, 0.7, 0.8)

  /** The answer text that replaces a failed generation, before the error. */
  const ApologyPrefix: string := "抱歉，调用模型时出现异常: "

  /** `str(e)` for `completion.choices[0]` on an empty list of choices. */
  const NoChoicesDetail: string := "list index out of range"

  /** `str(e)` for `.strip()` on a message whose content is `None`. */
  const NoContentDetail: string := "'NoneType' object has no attribute 'strip'"

  /** The dictionary `rag_query` returns. */
  datatype RagResult = RagResult(question: string, retrievedContext: string, messages: seq<Message>, answer: string)

  /** `[res['text'] for res in search_results]`. */
  function Texts(hits: seq<Hit>): (texts: seq<string>)
    ensures |texts| == |hits|
    ensures forall j :: 0 <= j < |hits| ==> texts[j] == hits[j].text
  {
    if |hits| == 0 then [] else [hits[0].text] + Texts(hits[1..])
  }

  /** `"\n".join(texts)`: the retrieval context. */
  function ContextOf(hits: seq<Hit>): string {
    Join(Texts(hits), '\n')
  }

  /** The error text the `except` clause sees, or `None` when the body of
      the `try` completes: the call itself may raise, and so may reading
      the first choice and stripping its content. */
  function GenerationError(c: Completion): (e: Option<string>)
    ensures e.None? <==> c.Completed? && |c.choices| > 0 && c.choices[0].content.Some?
    ensures c.Raised? ==> e == Some(c.detail)
    ensures c.Completed? && |c.choices| == 0 ==> e == Some(NoChoicesDetail)
    ensures c.Completed? && |c.choices| > 0 && c.choices[0].content.None? ==> e == Some(NoContentDetail)
  {
    match c
    case Raised(detail) => Some(detail)
    case Completed(choices) =>
      if |choices| == 0 then Some(NoChoicesDetail)
      else if choices[0].content.None? then Some(NoContentDetail)
      else None
  }

  /** The `answer` field for what the chat call did: the first choice's text
      with surrounding whitespace removed, or the apology followed by the
      error text. */
  function AnswerFor(c: Completion): (answer: string)
    ensures GenerationError(c).Some? ==> answer == ApologyPrefix + GenerationError(c).value
    ensures GenerationError(c).None? ==> answer == Strip(c.choices[0].content.value) && Trimmed(answer)
  {
    match c
    case Raised(detail) => ApologyPrefix + detail
    case Completed(choices) =>
      if |choices| == 0 then ApologyPrefix + NoChoicesDetail
      else match choices[0].content
        case None => ApologyPrefix + NoContentDetail
        case Some(text) => Strip(text)
  }

  /** The context of one more hit is the earlier context, a newline and
      that hit's text. */
  lemma ContextAppend(hits: seq<Hit>, h: Hit)
    requires |hits| > 0
    ensures ContextOf(hits + [h]) == ContextOf(hits) + "\n" + h.text
  {
    assert Texts(hits + [h]) == Texts(hits) + [h.text];
    JoinAppend(Texts(hits), h.text, '\n');
    assert "\n" == ['\n'];
  }

  /** The context of any hits: empty, the one text, or the context of all
      but the last hit, a newline and the last text. */
  lemma ContextShape(hits: seq<Hit>)
    ensures hits == [] ==> ContextOf(hits) == ""
    ensures |hits| == 1 ==> ContextOf(hits) == hits[0].text
    ensures |hits| > 1 ==> ContextOf(hits) == ContextOf(hits[..|hits| - 1]) + "\n" + hits[|hits| - 1].text
  {
    if |hits| == 1 {
      assert Texts(hits) == [hits[0].text];
    } else if |hits| > 1 {
      var init := hits[..|hits| - 1];
      var last := hits[|hits| - 1];
      ContextAppend(init, last);
      assert init + [last] == hits;
    }
  }

  /** When no hit text holds a newline, the context splits back into the texts. */
  lemma ContextSplitsBack(hits: seq<Hit>)
    requires hits != []
    requires forall j :: 0 <= j < |hits| ==> '\n' !in hits[j].text
    ensures Split(ContextOf(hits), '\n') == Texts(hits)
  {
    SplitJoin(Texts(hits), '\n');
  }

  /** A generated answer is already stripped: stripping it again changes
      nothing, and it is exactly the stripped first choice. */
  lemma GeneratedAnswerIsStripped(c: Completion)
    requires GenerationError(c).None?
    ensures Strip(AnswerFor(c)) == AnswerFor(c)
    ensures AnswerFor(c) == Strip(c.choices[0].content.value)
  {
    StripIdempotent(c.choices[0].content.value);
  }

  /** `rag_query(db, question, top_k, model_name)`: it raises only what the
      search raises; otherwise the result echoes the question, its context
      holds only retrieved document text and newlines, and the chat model is
      sent the two messages for that context and question. */
  function RagQuery(db: VectorDB, question: string, topK: int, modelName: string, o: Oracles): (r: Result<RagResult, StoreError>)
    ensures r.Failure? ==> Search(db, question, topK, o) == Failure(r.error)
    ensures r.Success? ==> Search(db, question, topK, o).Success?
    ensures r.Success? ==> r.value.question == question
    ensures r.Success? ==> |r.value.messages| == 2 && r.value.messages[0].content == SystemInstruction
    ensures r.Success? ==> r.value.messages[1].content == UserContent(r.value.retrievedContext, question)
    ensures r.Success? ==> forall c :: c in r.value.retrievedContext ==>
      c == '\n' || exists d :: d in db.documents && c in d
  {
    var hits :- Search(db, question, topK, o);
    var context := ContextOf(hits);
    var messages := Messages(context, question);
    Success(RagResult(question, context, messages, AnswerFor(o.generate(modelName, messages, QuerySampling))))
  }

  /** The pipeline raises exactly when the search raises, with the same
      error, whatever the chat model does: generation failures are absorbed. */
  lemma RagQueryFailsOnlyWithSearch(db: VectorDB, question: string, topK: int, modelName: string, o: Oracles)
    ensures RagQuery(db, question, topK, modelName, o).Failure? <==> Search(db, question, topK, o).Failure?
    ensures RagQuery(db, question, topK, modelName, o).Failure? ==>
      RagQuery(db, question, topK, modelName, o).error == Search(db, question, topK, o).error
  {
  }

  /** Before the store is loaded the pipeline raises `NotLoaded`. */
  lemma RagQueryRefusedUntilLoaded(db: VectorDB, question: string, topK: int, modelName: string, o: Oracles)
    requires !db.IsLoaded()
    ensures RagQuery(db, question, topK, modelName, o) == Failure(NotLoaded)
  {
  }

  /** What a successful query returns: the question unchanged; the context
      is empty when nothing was found, the one hit's text for one hit, and
      otherwise the context of all but the last hit, a newline and the last
      hit's text; when no hit text contains a newline the context also splits
      back into the hit texts. The messages are the system instruction and
      the framed context and question, and they parse back to the two when
      the context does not contain the question label. The messages are what
      the chat model was given. */
  lemma RagQueryAssembles(db: VectorDB, question: string, topK: int, modelName: string, o: Oracles)
    requires Search(db, question, topK, o).Success?
    ensures var hits := Search(db, question, topK, o).value;
      var r := RagQuery(db, question, topK, modelName, o);
      && r.Success?
      && r.value.question == question
      && (hits == [] ==> r.value.retrievedContext == "")
      && (|hits| == 1 ==> r.value.retrievedContext == hits[0].text)
      && (|hits| > 1 ==> r.value.retrievedContext == ContextOf(hits[..|hits| - 1]) + "\n" + hits[|hits| - 1].text)
      && ((hits != [] && forall j :: 0 <= j < |hits| ==> '\n' !in hits[j].text) ==>
            Split(r.value.retrievedContext, '\n') == Texts(hits))
      && r.value.messages == Messages(r.value.retrievedContext, question)
      && r.value.answer == AnswerFor(o.generate(modelName, r.value.messages, QuerySampling))
      && ((forall j :: !OccursAt(r.value.retrievedContext, QuestionLabel, j)) ==>
            ParseUserContent(r.value.messages[1].content) == Some((r.value.retrievedContext, question)))
  {
    var hits := Search(db, question, topK, o).value;
    var context := ContextOf(hits);
    var messages := Messages(context, question);
    assert RagQuery(db, question, topK, modelName, o)
      == Success(RagResult(question, context, messages, AnswerFor(o.generate(modelName, messages, QuerySampling))));
    ContextShape(hits);
    if hits != [] && forall j :: 0 <= j < |hits| ==> '\n' !in hits[j].text {
      ContextSplitsBack(hits);
    }
    if forall j :: !OccursAt(context, QuestionLabel, j) {
      UserContentRoundTrip(context, question);
    }
  }

  /** With the default `top_k=1`, a query's context is empty or exactly one
      stored document. */
  lemma DefaultQueryUsesAtMostOneDocument(db: VectorDB, question: string, modelName: string, o: Oracles)
    requires RagQuery(db, question, DefaultTopK, modelName, o).Success?
    ensures var context := RagQuery(db, question, DefaultTopK, modelName, o).value.retrievedContext;
      context == "" || context in db.documents
  {
    var hits := Search(db, question, DefaultTopK, o).value;
    if |hits| == 1 {
      assert Texts(hits) == [hits[0].text];
    }
  }

  /** A generation failure of any kind yields a result, whose answer is the
      apology followed by the error text; the rest of the result is as if
      generation had succeeded. */
  lemma GenerationFailureDegrades(db: VectorDB, question: string, topK: int, modelName: string, o: Oracles, detail: string)
    requires Search(db, question, topK, o).Success?
    requires var context := ContextOf(Search(db, question, topK, o).value);
      GenerationError(o.generate(modelName, Messages(context, question), QuerySampling)) == Some(detail)
    ensures var r := RagQuery(db, question, topK, modelName, o);
      && r.Success?
      && r.value.answer == ApologyPrefix + detail
      && r.value.answer[..|ApologyPrefix|] == ApologyPrefix
      && |r.value.answer| >= |ApologyPrefix| > 0
  {
  }
}

=== FILE: results.dfy ===
/** Failure-carrying values shared by the vector store and the RAG pipeline.
    `Result` is failure-compatible, so `:-` propagates an error the way a
    Python exception propagates out of a call that does not catch it. */
module Results {

  datatype Option<+T> = None | Some(value: T)

  datatype Result<+R, +E> = Success(value: R) | Failure(error: E) {

    predicate IsFailure() {
      Failure?
    }

    function PropagateFailure<U>(): Result<U, E>
      requires Failure?
    {
      Failure(error)
    }

    function Extract(): R
      requires Success?
    {
      value
    }
  }
}

=== FILE: scenario.dfy ===
/** The script's own run, with stand-in collaborators: build the store from
    the five demo documents, then ask a question with `top_k=3` while the
    index answers two matches and one empty slot and the chat call fails. */
module Scenario {
  import opened Results
  import opened Collaborators
  import opened Storage
  import opened VectorStore
  import opened Prompt
  import opened Rag
  import opened Text

  /** The demo documents of the script's entry point. */
  const DocPython: string := "Python 是一种高级编程语言，广泛用于 Web 开发、数据科学和人工智能。"
  const DocRag: string := "RAG 是 Retrieval-Augmented Generation 的缩写，结合了信息检索和文本生成。"
  const DocFaiss: string := "FAISS 是 Facebook 开源的向量相似性搜索库，支持高效检索。"
  const DocSentenceTransformers: string := "Sentence Transformers 可以将句子转换为高质量的向量表示。"
  const DocQwen: string := "通义千问是由阿里云开发的超大规模语言模型，能够回答问题、创作文字。"

  const DemoDocuments: seq<string> := [DocPython, DocRag, DocFaiss, DocSentenceTransformers, DocQwen]

  /** Stand-in collaborators: every text embeds to the zero vector of the
      default dimension; the index answers documents 1 and 2 and one empty
      slot; the chat call times out. The slots are fixed, chosen to exercise
      the loop: a flat index holding five vectors would fill all three slots,
      since it pads with `-1` only when it holds fewer than `k` vectors. */
  function DemoOracles(): Oracles {
    Oracles(
      texts => seq(|texts|, _ => seq(DefaultDimension, _ => 0.0)),
      (index, rows, k) => [Slot(0.25, 1), Slot(0.5, 2), Slot(0.75, NoMatch)],
      (model, messages, sampling) => Raised("Request timed out."))
  }

  /** The demo build: loaded, five vectors indexed, both artifacts written. */
  lemma DemoBuild()
    ensures var built := CreateAndSave(New(DefaultDimension), DemoDocuments, EmptyDisk, DemoOracles());
      && built.outcome == Ok
      && built.db.IsLoaded()
      && built.db.documents == DemoDocuments
      && BothPresent(built.disk)
      && |built.db.index.vectors| == 5
  {
    var rows := DemoOracles().embed(DemoDocuments);
    assert |rows| == 5;
    assert forall k :: 0 <= k < |rows| ==> rows[k] == seq(DefaultDimension, _ => 0.0);
    assert RowsFit(rows, DefaultDimension);
  }

  /** Searching any loaded 384-dimensional store of the demo documents with
      `top_k=3`: the empty slot is skipped and the two matches come back in
      slot order. */
  lemma DemoSearch(db: VectorDB, question: string)
    requires db.Loaded? && db.index.dimension == DefaultDimension && db.documents == DemoDocuments
    ensures Search(db, question, 3, DemoOracles()) == Success([Hit(DocRag, 0.25), Hit(DocFaiss, 0.5)])
  {
    DemoQueryFits(db, question);
    SearchRunsLoop(db, question, 3, DemoOracles());
    DemoLoop(SlotsFor(db, question, 3, DemoOracles()));
  }

  /** The demo query embeds to one row of the default dimension. */
  lemma DemoQueryFits(db: VectorDB, question: string)
    requires db.Loaded? && db.index.dimension == DefaultDimension
    ensures QueryFits(db, question, DemoOracles())
  {
    var rows := DemoOracles().embed([question]);
    assert |rows| == 1 && rows[0] == seq(DefaultDimension, _ => 0.0);
  }

  /** The loop over the demo slots: take documents 1 and 2, skip the sentinel. */
  lemma DemoLoop(slots: seq<Slot>)
    requires slots == [Slot(0.25, 1), Slot(0.5, 2), Slot(0.75, NoMatch)]
    ensures Collect(slots, DemoDocuments, 3, 0, []) == Success([Hit(DocRag, 0.25), Hit(DocFaiss, 0.5)])
  {
    var h1 := Hit(DocRag, 0.25);
    var h2 := Hit(DocFaiss, 0.5);
    CollectTakes(slots, DemoDocuments, 3, 0, []);
    assert [] + [h1] == [h1];
    CollectTakes(slots, DemoDocuments, 3, 1, [h1]);
    assert [h1] + [h2] == [h1, h2];
    CollectSkips(slots, DemoDocuments, 3, 2, [h1, h2]);
  }

  /** The context of two hits is their texts around one newline. */
  lemma ContextOfTwo(a: Hit, b: Hit)
    ensures ContextOf([a, b]) == a.text + "\n" + b.text
  {
    assert Texts([a, b]) == [a.text, b.text];
    assert [a.text, b.text][1..] == [b.text];
    assert Join([a.text, b.text], '\n') == a.text + ['\n'] + Join([b.text], '\n');
    assert "\n" == ['\n'];
  }

  /** A query whose search found `hits`: the result is assembled from them. */
  lemma QueryOfHits(db: VectorDB, question: string, topK: int, modelName: string, o: Oracles, hits: seq<Hit>)
    requires Search(db, question, topK, o) == Success(hits)
    ensures var messages := Messages(ContextOf(hits), question);
      RagQuery(db, question, topK, modelName, o)
        == Success(RagResult(question, ContextOf(hits), messages, AnswerFor(o.generate(modelName, messages, QuerySampling))))
  {
  }

  /** Build, then query: the context is the two matching documents nearest
      first, and the failed chat call becomes the apology answer. */
  lemma DemoRun(question: string)
    ensures var built := CreateAndSave(New(DefaultDimension), DemoDocuments, EmptyDisk, DemoOracles());
      var r := RagQuery(built.db, question, 3, DefaultModel, DemoOracles());
      && r.Success?
      && r.value.retrievedContext == DocRag + "\n" + DocFaiss
      && r.value.answer == ApologyPrefix + "Request timed out."
      && r.value.messages[0].content == SystemInstruction
  {
    var o := DemoOracles();
    DemoBuild();
    var built := CreateAndSave(New(DefaultDimension), DemoDocuments, EmptyDisk, o);
    assert built.db.index.dimension == DefaultDimension;
    DemoSearch(built.db, question);
    var hits := [Hit(DocRag, 0.25), Hit(DocFaiss, 0.5)];
    QueryOfHits(built.db, question, 3, DefaultModel, o, hits);
    ContextOfTwo(hits[0], hits[1]);
    var messages := Messages(ContextOf(hits), question);
    assert AnswerFor(o.generate(DefaultModel, messages, QuerySampling)) == ApologyPrefix + "Request timed out.";
  }
}

=== FILE: storage.dfy ===
/** The two persisted artifacts of the store, `vector_db/faiss_index.bin`
    and `vector_db/documents.pkl`, as two optional slots. A slot is `None`
    when its file does not exist. The on-disk formats (faiss binary, pickle)
    are not modelled: a write stores the value and a read returns it. */
module Storage {
  import opened Results
  import opened Collaborators

  datatype Disk = Disk(indexFile: Option<FlatIndex>, documentsFile: Option<seq<string>>)

  /** Nothing persisted yet. */
  const EmptyDisk: Disk := Disk(None, None)

  /** `faiss.write_index(index, INDEX_PATH)`: replaces the index artifact and
      leaves the document artifact alone. */
  function WriteIndex(disk: Disk, index: FlatIndex): (d: Disk)
    ensures d.indexFile == Some(index)
    ensures d.documentsFile == disk.documentsFile
  {
    disk.(indexFile := Some(index))
  }

  /** `pickle.dump(documents, f)` on `DOCS_PATH`: replaces the document
      artifact and leaves the index artifact alone. */
  function WriteDocuments(disk: Disk, documents: seq<string>): (d: Disk)
    ensures d.documentsFile == Some(documents)
    ensures d.indexFile == disk.indexFile
  {
    disk.(documentsFile := Some(documents))
  }

  /** Both artifacts exist: the condition `load` tests with `os.path.exists`. */
  predicate BothPresent(disk: Disk) {
    disk.indexFile.Some? && disk.documentsFile.Some?
  }

  /** Writing both artifacts, in either order, makes both present and each
      reads back exactly what was written. */
  lemma WritesReadBack(disk: Disk, index: FlatIndex, documents: seq<string>)
    ensures BothPresent(WriteDocuments(WriteIndex(disk, index), documents))
    ensures WriteDocuments(WriteIndex(disk, index), documents)
         == WriteIndex(WriteDocuments(disk, documents), index)
    ensures WriteDocuments(WriteIndex(disk, index), documents) == Disk(Some(index), Some(documents))
  {
  }
}

=== FILE: text.dfy ===
/** The two pieces of Python string handling the RAG step relies on:
    `sep.join(parts)` (to build the retrieval context) and `str.strip()`
    (to clean the generated answer), each with an independent partner:
    `Split` as the inverse of `Join`, and a slice characterisation of `Strip`. */
module Text {

  /** Python's `str.isspace` for one code point: the characters whose
      bidirectional class is WS, B or S, or whose category is Zs. These are
      exactly the characters `str.strip()` with no argument removes. */
  predicate IsSpace(c: char) {
    || ('\t' <= c <= '\r')
    || ('\U{1C}' <= c <= '\U{1F}')
    || c == ' '
    || c == '\U{85}'
    || c == '\U{A0}'
    || c == '\U{1680}'
    || ('\U{2000}' <= c <= '\U{200A}')
    || c == '\U{2028}'
    || c == '\U{2029}'
    || c == '\U{202F}'
    || c == '\U{205F}'
    || c == '\U{3000}'
  }

  /** True when `s` neither starts nor ends with whitespace. */
  predicate Trimmed(s: string) {
    s == [] || (!IsSpace(s[0]) && !IsSpace(s[|s| - 1]))
  }

  /** Number of whitespace characters at the front of `s`. */
  function LeadingSpaces(s: string): (n: nat)
    ensures n <= |s|
    ensures forall i :: 0 <= i < n ==> IsSpace(s[i])
    ensures n == |s| || !IsSpace(s[n])
  {
    if |s| > 0 && IsSpace(s[0]) then 1 + LeadingSpaces(s[1..]) else 0
  }

  /** Number of whitespace characters at the back of `s`. */
  function TrailingSpaces(s: string): (n: nat)
    ensures n <= |s|
    ensures forall i :: |s| - n <= i < |s| ==> IsSpace(s[i])
    ensures n == |s| || !IsSpace(s[|s| - n - 1])
  {
    if |s| > 0 && IsSpace(s[|s| - 1]) then 1 + TrailingSpaces(s[..|s| - 1]) else 0
  }

  /** Python `s.strip()`: the result is the contiguous middle of `s` that
      starts at the first non-whitespace character and ends at the last one;
      everything outside it is whitespace. */
  function Strip(s: string): (r: string)
    ensures LeadingSpaces(s) + |r| <= |s|
    ensures r == s[LeadingSpaces(s)..LeadingSpaces(s) + |r|]
    ensures forall i :: 0 <= i < |s| && !(LeadingSpaces(s) <= i < LeadingSpaces(s) + |r|) ==> IsSpace(s[i])
    ensures Trimmed(r)
  {
    var t := s[LeadingSpaces(s)..];
    t[..|t| - TrailingSpaces(t)]
  }

  /** `strip` changes exactly the strings that have whitespace at an end. */
  lemma StripFixesExactlyTrimmed(s: string)
    ensures Strip(s) == s <==> Trimmed(s)
  {
    if Trimmed(s) && s != [] {
      assert LeadingSpaces(s) == 0;
      var t := s[LeadingSpaces(s)..];
      assert t == s;
      assert TrailingSpaces(t) == 0;
    }
  }

  /** Stripping twice is stripping once. */
  lemma StripIdempotent(s: string)
    ensures Strip(Strip(s)) == Strip(s)
  {
    StripFixesExactlyTrimmed(Strip(s));
  }

  /** Python `sep.join(parts)` for a one-character separator: no parts give
      the empty string, one part gives that part, and otherwise the parts are
      concatenated with `sep` between neighbours. */
  function Join(parts: seq<string>, sep: char): (s: string)
    ensures |parts| == 0 ==> s == ""
    ensures |parts| == 1 ==> s == parts[0]
    ensures |parts| > 0 ==> |parts[0]| <= |s| && s[..|parts[0]|] == parts[0]
    ensures forall c :: c in s ==> c == sep || exists k :: 0 <= k < |parts| && c in parts[k]
  {
    if |parts| == 0 then ""
    else if |parts| == 1 then parts[0]
    else parts[0] + [sep] + Join(parts[1..], sep)
  }

  /** Joining one more part appends the separator and that part. With
      `Join([]) == ""` and `Join([p]) == p` this determines `Join` on every
      list of parts, whatever characters the parts contain. */
  lemma {:induction false} JoinAppend(parts: seq<string>, p: string, sep: char)
    requires |parts| > 0
    ensures Join(parts + [p], sep) == Join(parts, sep) + [sep] + p
    decreases |parts|
  {
    if |parts| == 1 {
      assert (parts + [p])[1..] == [p];
    } else {
      assert (parts + [p])[1..] == parts[1..] + [p];
      JoinAppend(parts[1..], p, sep);
    }
  }

  /** Python `s.split(sep)` for a one-character separator: the maximal
      separator-free pieces of `s`, so the empty string gives `[""]`. */
  function Split(s: string, sep: char): (parts: seq<string>)
    ensures |parts| >= 1
    ensures forall k :: 0 <= k < |parts| ==> sep !in parts[k]
  {
    if |s| == 0 then [""]
    else
      var rest := Split(s[1..], sep);
      if s[0] == sep then [""] + rest
      else [[s[0]] + rest[0]] + rest[1..]
  }

  /** Splitting a separator-free prefix followed by the separator peels off
      exactly that prefix. */
  lemma {:induction false} SplitAfterPiece(a: string, b: string, sep: char)
    requires sep !in a
    ensures Split(a + [sep] + b, sep) == [a] + Split(b, sep)
    decreases |a|
  {
    if |a| == 0 {
      assert a + [sep] + b == [sep] + b;
      assert ([sep] + b)[1..] == b;
    } else {
      var s := a + [sep] + b;
      assert s[1..] == a[1..] + [sep] + b;
      SplitAfterPiece(a[1..], b, sep);
      assert [a[0]] + a[1..] == a;
    }
  }

  /** A separator-free string splits into itself alone. */
  lemma {:induction false} SplitPiece(a: string, sep: char)
    requires sep !in a
    ensures Split(a, sep) == [a]
    decreases |a|
  {
    if |a| > 0 {
      SplitPiece(a[1..], sep);
      assert [a[0]] + a[1..] == a;
    }
  }

  /** `Split` undoes `Join` when at least one part is given and no part
      contains the separator. */
  lemma {:induction false} SplitJoin(parts: seq<string>, sep: char)
    requires |parts| >= 1
    requires forall k :: 0 <= k < |parts| ==> sep !in parts[k]
    ensures Split(Join(parts, sep), sep) == parts
    decreases |parts|
  {
    if |parts| == 1 {
      SplitPiece(parts[0], sep);
    } else {
      SplitAfterPiece(parts[0], Join(parts[1..], sep), sep);
      SplitJoin(parts[1..], sep);
      assert [parts[0]] + parts[1..] == parts;
    }
  }

  /** `Join` undoes `Split` on every string. */
  lemma {:induction false} JoinSplit(s: string, sep: char)
    ensures Join(Split(s, sep), sep) == s
    decreases |s|
  {
    if |s| > 0 {
      var rest := Split(s[1..], sep);
      JoinSplit(s[1..], sep);
      if s[0] == sep {
        assert Join([""] + rest, sep) == "" + [sep] + Join(rest, sep);
        assert s == [sep] + s[1..];
      } else {
        var parts := [[s[0]] + rest[0]] + rest[1..];
        assert parts[1..] == rest[1..];
        if |rest| == 1 {
          assert Join(rest, sep) == rest[0];
        } else {
          assert Join(rest, sep) == rest[0] + [sep] + Join(rest[1..], sep);
        }
        assert s == [s[0]] + s[1..];
      }
    }
  }
}

=== FILE: vector_store.dfy ===
/** `SimpleVectorDB` of rag/rag01.py: a flat L2 index of document embeddings
    kept parallel to the list of documents, built and persisted by
    `create_and_save`, restored by `load`, and queried by `search`.

    The Python object is mutable and its methods raise. Here a store is an
    immutable value, a mutating method returns the whole `Step` it takes
    (new store, new disk, outcome), because `create_and_save` can raise after
    it has already replaced the index, and `search`, which mutates nothing,
    returns a `Result`. */
module VectorStore {
  import opened Results
  import opened Collaborators
  import opened Storage

  /** `SimpleVectorDB(dimension=384)` is the constructor's default. */
  const DefaultDimension: nat := 384

  /** `top_k=1` is the default of `search`, and of `rag_query`, which passes it on. */
  const DefaultTopK: int := 1

  /** The exceptions the store raises. `RaggedEmbeddings` is numpy refusing
      to turn rows of unequal lengths into a float32 matrix (a `ValueError`
      from `np.array(...).astype('float32')`); `DimensionMismatch` is faiss refusing
      a matrix of vectors (to add, or to search with) whose rows do not have
      the index's number of columns; `InvalidTopK` is faiss's search refusing
      a non-positive number of neighbours; `IndexError` is Python list or
      array indexing out of bounds. */
  datatype StoreError = NotLoaded | FileNotFound | RaggedEmbeddings | DimensionMismatch | InvalidTopK | IndexError

  /** The store's fields. `is_loaded` is the variant, so a loaded store
      always has an index; an unloaded one may hold an index already, left
      by a `create_and_save` that raised. */
  datatype VectorDB =
    | Unloaded(dimension: nat, maybeIndex: Option<FlatIndex>, documents: seq<string>)
    | Loaded(dimension: nat, index: FlatIndex, documents: seq<string>)
  {
    predicate IsLoaded() { Loaded? }

    function CurrentIndex(): Option<FlatIndex> {
      match this
      case Unloaded(_, i, _) => i
      case Loaded(_, i, _) => Some(i)
    }
  }

  datatype Outcome = Ok | Err(error: StoreError)

  /** The store and disk after a mutating call, and whether it raised. */
  datatype Step = Step(db: VectorDB, disk: Disk, outcome: Outcome)

  /** One `{'text': ..., 'score': ...}` entry of a search result. */
  datatype Hit = Hit(text: string, score: real)

  // ---------------------------------------------------------------------
  // Lifecycle
  // ---------------------------------------------------------------------

  /** `SimpleVectorDB(dimension)`: no index, no documents, not loaded. */
  function New(dimension: nat): (db: VectorDB)
    ensures !db.IsLoaded() && db.CurrentIndex() == None && db.documents == []
    ensures db.dimension == dimension
  {
    Unloaded(dimension, None, [])
  }

  /** The store with its index replaced and nothing else changed. */
  function WithIndex(db: VectorDB, index: FlatIndex): (r: VectorDB)
    ensures r.CurrentIndex() == Some(index)
    ensures r.IsLoaded() == db.IsLoaded() && r.dimension == db.dimension && r.documents == db.documents
  {
    match db
    case Unloaded(d, _, docs) => Unloaded(d, Some(index), docs)
    case Loaded(d, _, docs) => Loaded(d, index, docs)
  }

  /** Rows numpy can stack into a matrix: all of one length. */
  predicate Rectangular(rows: seq<Vector>) {
    forall a, b :: 0 <= a < |rows| && 0 <= b < |rows| ==> |rows[a]| == |rows[b]|
  }

  /** The matrices faiss accepts for an index of `dimension` (to `add`, and
      as the queries of `search`): at least one row, all of width
      `dimension`. An empty batch of embeddings has no column axis and is
      refused as well. */
  predicate RowsFit(rows: seq<Vector>, dimension: nat) {
    |rows| > 0 && forall k :: 0 <= k < |rows| ==> |rows[k]| == dimension
  }

  /** `create_and_save(documents)`: embed the documents and stack them into
      a float32 matrix, replace the index by a fresh `IndexFlatL2(dimension)`,
      add the embeddings, write the index artifact, then the document
      artifact, then adopt the documents and become loaded. Ragged embeddings
      raise while stacking, before anything has changed. If `add` refuses the
      embeddings, the fresh empty index has already replaced the old one;
      nothing is written and the documents and loaded flag are untouched. */
  function CreateAndSave(db: VectorDB, documents: seq<string>, disk: Disk, o: Oracles): (s: Step)
    ensures s.db.dimension == db.dimension
    ensures s.outcome.Ok? <==> RowsFit(o.embed(documents), db.dimension)
    ensures s.outcome.Ok? ==>
      && s.db.IsLoaded()
      && s.db.documents == documents
      && s.db.index == FlatIndex(db.dimension, o.embed(documents))
      && s.disk == Disk(Some(s.db.index), Some(documents))
    ensures s.outcome.Err? ==> s.disk == disk
    ensures s.outcome == Err(RaggedEmbeddings) <==> !Rectangular(o.embed(documents))
    ensures s.outcome == Err(RaggedEmbeddings) ==> s.db == db
    ensures s.outcome.Err? && s.outcome.error != RaggedEmbeddings ==>
      && s.outcome.error == DimensionMismatch
      && s.db == WithIndex(db, FlatIndex(db.dimension, []))
  {
    var rows := o.embed(documents);
    var empty := FlatIndex(db.dimension, []);
    if !Rectangular(rows) then
      Step(db, disk, Err(RaggedEmbeddings))
    else if !RowsFit(rows, db.dimension) then
      Step(WithIndex(db, empty), disk, Err(DimensionMismatch))
    else
      var index := empty.(vectors := empty.vectors + rows);
      var disk' := WriteDocuments(WriteIndex(disk, index), documents);
      Step(Loaded(db.dimension, index, documents), disk', Ok)
  }

  /** `load()`: refuse unless both artifacts exist; otherwise read the index,
      then the documents, and become loaded. The sizes of the two are not
      compared, and the dimension field is left as constructed. */
  function Load(db: VectorDB, disk: Disk): (s: Step)
    ensures s.disk == disk
    ensures s.outcome.Err? <==> !BothPresent(disk)
    ensures s.outcome.Err? ==> s.outcome.error == FileNotFound && s.db == db
    ensures s.outcome.Ok? ==>
      && s.db == Loaded(db.dimension, disk.indexFile.value, disk.documentsFile.value)
  {
    if !BothPresent(disk) then Step(db, disk, Err(FileNotFound))
    else Step(Loaded(db.dimension, disk.indexFile.value, disk.documentsFile.value), disk, Ok)
  }

  // ---------------------------------------------------------------------
  // Search
  // ---------------------------------------------------------------------

  /** Python `documents[p]` for an integer `p`: negative positions count
      from the end, anything outside `[-|documents|, |documents|)` raises. */
  function PyIndex(documents: seq<string>, p: int): Option<string> {
    if 0 <= p < |documents| then Some(documents[p])
    else if -|documents| <= p < 0 then Some(documents[|documents| + p])
    else None
  }

  /** The loop at the end of `search`, from iteration `i` on, with the hits
      gathered so far in `acc`: for `i` in `range(top_k)`, read slot `i`
      (raising if the row is shorter), skip it when its position is `-1`,
      otherwise look the document up (raising if out of bounds) and append
      its text and the slot's distance. */
  function Collect(slots: seq<Slot>, documents: seq<string>, topK: int, i: nat, acc: seq<Hit>)
    : (r: Result<seq<Hit>, StoreError>)
    ensures r.Failure? ==> r.error == IndexError
    decreases topK - i
  {
    if topK <= i then Success(acc)
    else if |slots| <= i then Failure(IndexError)
    else if slots[i].position == NoMatch then Collect(slots, documents, topK, i + 1, acc)
    else match PyIndex(documents, slots[i].position)
      case None => Failure(IndexError)
      case Some(text) => Collect(slots, documents, topK, i + 1, acc + [Hit(text, slots[i].distance)])
  }

  /** What the loop adds to the hits it was given: at most one per remaining
      iteration, each a stored document, after the hits already gathered. */
  lemma {:induction false} CollectBounds(slots: seq<Slot>, documents: seq<string>, topK: int, i: nat, acc: seq<Hit>)
    ensures var r := Collect(slots, documents, topK, i, acc);
      r.Success? ==>
        && |acc| <= |r.value| && r.value[..|acc|] == acc
        && (i < topK ==> |r.value| <= |acc| + (topK - i))
        && (topK <= i ==> r.value == acc)
        && forall j :: |acc| <= j < |r.value| ==> r.value[j].text in documents
    decreases topK - i
  {
    if i < topK && i < |slots| {
      var p := slots[i].position;
      if p == NoMatch {
        CollectBounds(slots, documents, topK, i + 1, acc);
      } else if PyIndex(documents, p).Some? {
        var next := acc + [Hit(PyIndex(documents, p).value, slots[i].distance)];
        CollectBounds(slots, documents, topK, i + 1, next);
        var r := Collect(slots, documents, topK, i, acc);
        if r.Success? {
          assert r.value[..|next|][..|acc|] == r.value[..|acc|];
          assert r.value[|acc|] == next[|acc|];
        }
      }
    }
  }

  /** `search(query, top_k)`: refused until loaded; otherwise embed the query
      and ask the index for `top_k` slots, which faiss refuses for a query
      row of the wrong width and for `top_k <= 0`; then assemble the hits.
      Every hit is a stored document, and there are at most `top_k`. */
  function Search(db: VectorDB, query: string, topK: int, o: Oracles): (r: Result<seq<Hit>, StoreError>)
    ensures !db.IsLoaded() ==> r == Failure(NotLoaded)
    ensures db.IsLoaded() && !Rectangular(o.embed([query])) ==> r == Failure(RaggedEmbeddings)
    ensures db.IsLoaded() && Rectangular(o.embed([query])) && !RowsFit(o.embed([query]), db.index.dimension) ==>
      r == Failure(DimensionMismatch)
    ensures db.IsLoaded() && RowsFit(o.embed([query]), db.index.dimension) && topK <= 0 ==> r == Failure(InvalidTopK)
    ensures r.Success? ==> |r.value| <= topK
    ensures r.Success? ==> forall j :: 0 <= j < |r.value| ==> r.value[j].text in db.documents
  {
    match db
    case Unloaded(_, _, _) => Failure(NotLoaded)
    case Loaded(_, index, documents) =>
      var rows := o.embed([query]);
      if !Rectangular(rows) then Failure(RaggedEmbeddings)
      else if !RowsFit(rows, index.dimension) then Failure(DimensionMismatch)
      else if topK <= 0 then Failure(InvalidTopK)
      else
        CollectBounds(o.knn(index, rows, topK), documents, topK, 0, []);
        Collect(o.knn(index, rows, topK), documents, topK, 0, [])
  }

  /** The query matrix `search` hands to faiss fits a loaded store's index. */
  predicate QueryFits(db: VectorDB, query: string, o: Oracles)
    requires db.Loaded?
  {
    RowsFit(o.embed([query]), db.index.dimension)
  }

  /** An embedding model of the index's own dimension always yields a query
      matrix the index accepts. */
  lemma MatchingEmbedderFitsQuery(db: VectorDB, query: string, o: Oracles)
    requires db.Loaded?
    requires EmbedsWithDimension(o.embed, db.index.dimension)
    ensures QueryFits(db, query, o)
  {
    var rows := o.embed([query]);
    assert |rows| == 1;
    assert rows[0] in rows;
  }

  /** When faiss accepts the query, `search` runs the loop over the slots. */
  lemma SearchRunsLoop(db: VectorDB, query: string, topK: int, o: Oracles)
    requires db.Loaded? && QueryFits(db, query, o) && 0 < topK
    ensures Search(db, query, topK, o) == Collect(SlotsFor(db, query, topK, o), db.documents, topK, 0, [])
  {
  }

  /** The slots `search` asks the index for on a loaded store. */
  function SlotsFor(db: VectorDB, query: string, topK: int, o: Oracles): seq<Slot>
    requires db.Loaded?
  {
    o.knn(db.index, o.embed([query]), topK)
  }

  // ---------------------------------------------------------------------
  // Reference description of the assembled result
  // ---------------------------------------------------------------------

  /** The slots that hold a match. */
  function Survivors(slots: seq<Slot>): (kept: seq<Slot>)
    ensures |kept| <= |slots|
    ensures forall x :: x in kept <==> x in slots && x.position != NoMatch
  {
    if |slots| == 0 then []
    else if slots[0].position == NoMatch then Survivors(slots[1..])
    else [slots[0]] + Survivors(slots[1..])
  }

  /** `Survivors` works slot by slot and keeps slot order: a single slot
      survives exactly when it is not the sentinel, and the survivors of a
      concatenation are the survivors of the first part followed by those of
      the second. These two facts determine `Survivors` completely. */
  lemma SurvivorsKeepSlotOrder(a: seq<Slot>, b: seq<Slot>)
    ensures Survivors(a + b) == Survivors(a) + Survivors(b)
    ensures forall x: Slot :: Survivors([x]) == if x.position == NoMatch then [] else [x]
  {
    SurvivorsOfConcatenation(a, b);
    forall x: Slot
      ensures Survivors([x]) == if x.position == NoMatch then [] else [x]
    {
      assert [x][1..] == [];
    }
  }

  lemma {:induction false} SurvivorsOfConcatenation(a: seq<Slot>, b: seq<Slot>)
    ensures Survivors(a + b) == Survivors(a) + Survivors(b)
    decreases |a|
  {
    if |a| == 0 {
      assert a + b == b;
    } else {
      var ab := a + b;
      assert ab[0] == a[0];
      assert ab[1..] == a[1..] + b;
      SurvivorsOfConcatenation(a[1..], b);
      if a[0].position == NoMatch {
        assert Survivors(ab) == Survivors(a[1..] + b);
      } else {
        assert Survivors(ab) == [a[0]] + Survivors(a[1..] + b);
        assert [a[0]] + (Survivors(a[1..]) + Survivors(b)) == ([a[0]] + Survivors(a[1..])) + Survivors(b);
      }
    }
  }

  /** Slot `s` is the sentinel or can be used to index `documents` in Python. */
  predicate Indexable(s: Slot, documents: seq<string>) {
    s.position == NoMatch || PyIndex(documents, s.position).Some?
  }

  /** Slot `s` is the sentinel or a direct index into `n` documents. */
  predicate InRange(s: Slot, n: int) {
    s.position == NoMatch || 0 <= s.position < n
  }

  /** Every non-sentinel position of `slots` indexes `documents` directly. */
  predicate PositionsInRange(slots: seq<Slot>, documents: seq<string>) {
    forall m :: 0 <= m < |slots| ==> InRange(slots[m], |documents|)
  }

  /** Every non-sentinel position is a valid Python index into `documents`. */
  predicate PositionsIndexable(slots: seq<Slot>, documents: seq<string>) {
    forall m :: 0 <= m < |slots| ==> Indexable(slots[m], documents)
  }

  /** The hits for a list of matching slots: each slot's document and distance. */
  function Resolve(kept: seq<Slot>, documents: seq<string>): (hits: seq<Hit>)
    requires forall j :: 0 <= j < |kept| ==> 0 <= kept[j].position < |documents|
    ensures |hits| == |kept|
    ensures forall j :: 0 <= j < |kept| ==> hits[j] == Hit(documents[kept[j].position], kept[j].distance)
  {
    if |kept| == 0 then [] else [Hit(documents[kept[0].position], kept[0].distance)] + Resolve(kept[1..], documents)
  }

  lemma SurvivorsInRange(slots: seq<Slot>, documents: seq<string>)
    requires PositionsInRange(slots, documents)
    ensures forall j :: 0 <= j < |Survivors(slots)| ==> 0 <= Survivors(slots)[j].position < |documents|
  {
    var kept := Survivors(slots);
    forall j | 0 <= j < |kept|
      ensures 0 <= kept[j].position < |documents|
    {
      assert kept[j] in slots;
    }
  }

  /** Slot `i` of a window and the window after it. */
  lemma WindowStep(slots: seq<Slot>, documents: seq<string>, i: nat, k: int)
    requires i < k <= |slots|
    ensures Survivors(slots[i..k]) == (if slots[i].position == NoMatch then [] else [slots[i]]) + Survivors(slots[i + 1..k])
    ensures PositionsInRange(slots[i..k], documents) ==>
      InRange(slots[i], |documents|) && PositionsInRange(slots[i + 1..k], documents)
    ensures PositionsIndexable(slots[i..k], documents) <==>
      Indexable(slots[i], documents) && PositionsIndexable(slots[i + 1..k], documents)
  {
    var window := slots[i..k];
    assert window[0] == slots[i];
    assert window[1..] == slots[i + 1..k];
  }

  /** One iteration of the loop on a sentinel slot: nothing is appended. */
  lemma CollectSkips(slots: seq<Slot>, documents: seq<string>, topK: int, i: nat, acc: seq<Hit>)
    requires i < topK && i < |slots| && slots[i].position == NoMatch
    ensures Collect(slots, documents, topK, i, acc) == Collect(slots, documents, topK, i + 1, acc)
  {
  }

  /** One iteration of the loop on a slot that indexes the documents
      directly: its hit is appended. */
  lemma CollectTakes(slots: seq<Slot>, documents: seq<string>, topK: int, i: nat, acc: seq<Hit>)
    requires i < topK && i < |slots| && 0 <= slots[i].position < |documents|
    ensures Collect(slots, documents, topK, i, acc)
      == Collect(slots, documents, topK, i + 1, acc + [Hit(documents[slots[i].position], slots[i].distance)])
  {
  }

  /** The fused loop equals filter-then-lookup: from iteration `i`, with all
      later slots present and in range, `Collect` appends the hits of the
      matches among slots `i .. topK`. */
  lemma {:induction false} CollectIsResolveOfSurvivors(slots: seq<Slot>, documents: seq<string>, topK: int, i: nat, acc: seq<Hit>)
    requires i <= topK <= |slots|
    requires PositionsInRange(slots[i..topK], documents)
    ensures Collect(slots, documents, topK, i, acc) == Success(acc + Resolve(Survivors(slots[i..topK]), documents))
    decreases topK - i, 1
  {
    if i == topK {
      assert Survivors(slots[i..topK]) == [];
      assert acc + [] == acc;
    } else if slots[i].position == NoMatch {
      SkippedSlotIsResolveOfSurvivors(slots, documents, topK, i, acc);
    } else {
      TakenSlotIsResolveOfSurvivors(slots, documents, topK, i, acc);
    }
  }

  /** The inductive step of `CollectIsResolveOfSurvivors` on a sentinel slot. */
  lemma {:induction false} SkippedSlotIsResolveOfSurvivors(slots: seq<Slot>, documents: seq<string>, topK: int, i: nat, acc: seq<Hit>)
    requires i < topK <= |slots|
    requires PositionsInRange(slots[i..topK], documents)
    requires slots[i].position == NoMatch
    ensures Collect(slots, documents, topK, i, acc) == Success(acc + Resolve(Survivors(slots[i..topK]), documents))
    decreases topK - i, 0
  {
    WindowStep(slots, documents, i, topK);
    CollectSkips(slots, documents, topK, i, acc);
    CollectIsResolveOfSurvivors(slots, documents, topK, i + 1, acc);
    assert Survivors(slots[i..topK]) == Survivors(slots[i + 1..topK]);
  }

  /** The inductive step of `CollectIsResolveOfSurvivors` on a matching slot. */
  lemma {:induction false} TakenSlotIsResolveOfSurvivors(slots: seq<Slot>, documents: seq<string>, topK: int, i: nat, acc: seq<Hit>)
    requires i < topK <= |slots|
    requires PositionsInRange(slots[i..topK], documents)
    requires slots[i].position != NoMatch
    ensures Collect(slots, documents, topK, i, acc) == Success(acc + Resolve(Survivors(slots[i..topK]), documents))
    decreases topK - i, 0
  {
    WindowStep(slots, documents, i, topK);
    var rest := Survivors(slots[i + 1..topK]);
    SurvivorsInRange(slots[i + 1..topK], documents);
    var hit := Hit(documents[slots[i].position], slots[i].distance);
    CollectTakes(slots, documents, topK, i, acc);
    CollectIsResolveOfSurvivors(slots, documents, topK, i + 1, acc + [hit]);
    ResolveCons(slots[i], rest, documents);
    assert Survivors(slots[i..topK]) == [slots[i]] + rest;
    assert acc + [hit] + Resolve(rest, documents) == acc + ([hit] + Resolve(rest, documents));
  }

  lemma ResolveCons(x: Slot, kept: seq<Slot>, documents: seq<string>)
    requires 0 <= x.position < |documents|
    requires forall j :: 0 <= j < |kept| ==> 0 <= kept[j].position < |documents|
    ensures Resolve([x] + kept, documents) == [Hit(documents[x.position], x.distance)] + Resolve(kept, documents)
  {
    assert ([x] + kept)[1..] == kept;
  }

  /** From iteration `i`, the loop raises exactly when it reaches a missing
      slot or a position Python cannot index with, and then always with
      `IndexError`. */
  lemma {:induction false} CollectFailsExactly(slots: seq<Slot>, documents: seq<string>, topK: int, i: nat, acc: seq<Hit>)
    requires i <= |slots|
    ensures Collect(slots, documents, topK, i, acc).Failure? <==>
      i < topK && !(topK <= |slots| && PositionsIndexable(slots[i..topK], documents))
    ensures Collect(slots, documents, topK, i, acc).Failure? ==>
      Collect(slots, documents, topK, i, acc).error == IndexError
    decreases topK - i
  {
    if i < topK && i < |slots| {
      var p := slots[i].position;
      var next := if p != NoMatch && PyIndex(documents, p).Some? then acc + [Hit(PyIndex(documents, p).value, slots[i].distance)] else acc;
      CollectFailsExactly(slots, documents, topK, i + 1, next);
      if topK <= |slots| {
        var window := slots[i..topK];
        var rest := slots[i + 1..topK];
        assert window == [slots[i]] + rest;
        assert forall m :: 0 <= m < |rest| ==> rest[m] == window[m + 1];
        assert PositionsIndexable(window, documents) <==>
          Indexable(slots[i], documents) && PositionsIndexable(rest, documents);
      }
    }
  }

  // ---------------------------------------------------------------------
  // Properties of search
  // ---------------------------------------------------------------------

  /** `search` is refused with `NotLoaded` exactly on an unloaded store. */
  lemma SearchRefusedUntilLoaded(db: VectorDB, query: string, topK: int, o: Oracles)
    ensures Search(db, query, topK, o) == Failure(NotLoaded) <==> !db.IsLoaded()
  {
  }

  /** A freshly constructed store refuses to search. */
  lemma FreshStoreRefusesSearch(dimension: nat, query: string, topK: int, o: Oracles)
    ensures Search(New(dimension), query, topK, o) == Failure(NotLoaded)
  {
  }

  /** On a loaded store whose index accepts the query and answers a positive
      `topK` with at least `topK` slots, all of them `-1` or within the
      document list, `search` succeeds and returns
      one hit per matching slot among the first `topK`, in slot order: hit
      `j` is the document at the `j`-th match's position, scored with that
      slot's distance. So there are at most `topK` hits. */
  lemma SearchAssemblesMatches(db: VectorDB, query: string, topK: int, o: Oracles)
    requires db.Loaded? && QueryFits(db, query, o)
    requires 0 < topK <= |SlotsFor(db, query, topK, o)|
    requires PositionsInRange(SlotsFor(db, query, topK, o)[..topK], db.documents)
    ensures var kept := Survivors(SlotsFor(db, query, topK, o)[..topK]);
      && Search(db, query, topK, o).Success?
      && |Search(db, query, topK, o).value| == |kept| <= topK
      && forall j :: 0 <= j < |kept| ==>
           && 0 <= kept[j].position < |db.documents|
           && Search(db, query, topK, o).value[j] == Hit(db.documents[kept[j].position], kept[j].distance)
  {
    var slots := SlotsFor(db, query, topK, o);
    var window := slots[..topK];
    assert Search(db, query, topK, o) == Collect(slots, db.documents, topK, 0, []);
    assert slots[0..topK] == window;
    CollectIsResolveOfSurvivors(slots, db.documents, topK, 0, []);
    SurvivorsInRange(window, db.documents);
    assert [] + Resolve(Survivors(window), db.documents) == Resolve(Survivors(window), db.documents);
  }

  /** On a loaded store, `search` raises exactly when the query embedding
      cannot be stacked (`RaggedEmbeddings`), when faiss refuses the query (a
      query row of the wrong width, then `top_k <= 0`), or when the
      index answered with fewer than `topK` slots or with a position Python
      cannot use to index the document list, which raises `IndexError`. */
  lemma SearchFailsExactly(db: VectorDB, query: string, topK: int, o: Oracles)
    requires db.Loaded?
    ensures var slots := SlotsFor(db, query, topK, o);
      Search(db, query, topK, o).Failure? <==>
        || !QueryFits(db, query, o)
        || topK <= 0
        || !(topK <= |slots| && PositionsIndexable(slots[..topK], db.documents))
    ensures !Rectangular(o.embed([query])) ==> Search(db, query, topK, o) == Failure(RaggedEmbeddings)
    ensures Rectangular(o.embed([query])) && !QueryFits(db, query, o) ==> Search(db, query, topK, o) == Failure(DimensionMismatch)
    ensures QueryFits(db, query, o) && topK <= 0 ==> Search(db, query, topK, o) == Failure(InvalidTopK)
    ensures QueryFits(db, query, o) && 0 < topK && Search(db, query, topK, o).Failure? ==>
      Search(db, query, topK, o).error == IndexError
  {
    var slots := SlotsFor(db, query, topK, o);
    CollectFailsExactly(slots, db.documents, topK, 0, []);
    if 0 < topK <= |slots| {
      assert slots[0..topK] == slots[..topK];
    }
  }

  /** Slots ordered by distance, nearest first (faiss promises this). */
  predicate NearestFirst(slots: seq<Slot>) {
    forall a, b :: 0 <= a < b < |slots| ==> slots[a].distance <= slots[b].distance
  }

  lemma {:induction false} SurvivorsNearestFirst(slots: seq<Slot>)
    requires NearestFirst(slots)
    ensures NearestFirst(Survivors(slots))
  {
    if |slots| > 0 {
      var rest := slots[1..];
      assert NearestFirst(rest) by {
        assert forall m :: 0 <= m < |rest| ==> rest[m] == slots[m + 1];
      }
      SurvivorsNearestFirst(rest);
      var kept := Survivors(rest);
      if slots[0].position != NoMatch {
        forall j | 0 <= j < |kept|
          ensures slots[0].distance <= kept[j].distance
        {
          assert kept[j] in rest;
        }
      }
    }
  }

  /** If the index returns its slots nearest first, the hits are ordered by
      nondecreasing score. */
  lemma SearchKeepsNearestFirst(db: VectorDB, query: string, topK: int, o: Oracles)
    requires db.Loaded? && QueryFits(db, query, o)
    requires 0 < topK <= |SlotsFor(db, query, topK, o)|
    requires PositionsInRange(SlotsFor(db, query, topK, o)[..topK], db.documents)
    requires NearestFirst(SlotsFor(db, query, topK, o)[..topK])
    ensures Search(db, query, topK, o).Success?
    ensures var hits := Search(db, query, topK, o).value;
      forall a, b :: 0 <= a < b < |hits| ==> hits[a].score <= hits[b].score
  {
    SearchAssemblesMatches(db, query, topK, o);
    SurvivorsNearestFirst(SlotsFor(db, query, topK, o)[..topK]);
  }

  /** The matching slots name pairwise different documents (faiss returns
      each stored vector at most once per query). */
  predicate DistinctMatches(slots: seq<Slot>) {
    forall a, b :: 0 <= a < b < |slots| && slots[a].position != NoMatch && slots[b].position != NoMatch
      ==> slots[a].position != slots[b].position
  }

  lemma {:induction false} SurvivorsDistinct(slots: seq<Slot>)
    requires DistinctMatches(slots)
    ensures DistinctMatches(Survivors(slots))
  {
    if |slots| > 0 {
      var rest := slots[1..];
      assert DistinctMatches(rest) by {
        assert forall m :: 0 <= m < |rest| ==> rest[m] == slots[m + 1];
      }
      SurvivorsDistinct(rest);
      var kept := Survivors(rest);
      if slots[0].position != NoMatch {
        forall j | 0 <= j < |kept|
          ensures slots[0].position != kept[j].position
        {
          assert kept[j] in rest;
        }
      }
    }
  }

  function PositionSet(kept: seq<Slot>): set<int> {
    set j | 0 <= j < |kept| :: kept[j].position
  }

  function Below(n: nat): (s: set<int>)
    ensures |s| == n
    ensures forall p :: p in s <==> 0 <= p < n
  {
    if n == 0 then {} else Below(n - 1) + {n - 1}
  }

  /** Pairwise different positions are as many as the slots carrying them. */
  lemma {:induction false} DistinctPositionsCount(kept: seq<Slot>)
    requires forall j :: 0 <= j < |kept| ==> kept[j].position != NoMatch
    requires DistinctMatches(kept)
    ensures |PositionSet(kept)| == |kept|
  {
    if |kept| > 0 {
      var rest := kept[1..];
      assert forall m :: 0 <= m < |rest| ==> rest[m] == kept[m + 1];
      DistinctPositionsCount(rest);
      assert PositionSet(kept) == {kept[0].position} + PositionSet(rest) by {
        forall p | p in PositionSet(kept)
          ensures p in {kept[0].position} + PositionSet(rest)
        {
          var j :| 0 <= j < |kept| && kept[j].position == p;
          if j > 0 { assert rest[j - 1] == kept[j]; }
        }
      }
      assert kept[0].position !in PositionSet(rest);
    }
  }

  /** If the index never reports a document twice, a search returns at most
      as many hits as there are documents. */
  lemma SearchAtMostDocuments(db: VectorDB, query: string, topK: int, o: Oracles)
    requires db.Loaded? && QueryFits(db, query, o)
    requires 0 < topK <= |SlotsFor(db, query, topK, o)|
    requires PositionsInRange(SlotsFor(db, query, topK, o)[..topK], db.documents)
    requires DistinctMatches(SlotsFor(db, query, topK, o)[..topK])
    ensures Search(db, query, topK, o).Success?
    ensures |Search(db, query, topK, o).value| <= |db.documents|
  {
    var window := SlotsFor(db, query, topK, o)[..topK];
    SearchAssemblesMatches(db, query, topK, o);
    SurvivorsInRange(window, db.documents);
    SurvivorsDistinct(window);
    var kept := Survivors(window);
    DistinctPositionsCount(kept);
    assert PositionSet(kept) <= Below(|db.documents|);
    SubsetNoLarger(PositionSet(kept), Below(|db.documents|));
  }

  lemma SubsetNoLarger(a: set<int>, b: set<int>)
    requires a <= b
    ensures |a| <= |b|
  {
    assert b == a + (b - a);
    assert a * (b - a) == {};
  }

  // ---------------------------------------------------------------------
  // Properties of the lifecycle
  // ---------------------------------------------------------------------

  /** The invariant a loaded store is meant to keep: one vector
      per document. */
  predicate Parallel(db: VectorDB) {
    db.Loaded? ==> |db.index.vectors| == |db.documents|
  }

  /** With an embedding model of the store's dimension, `create_and_save`
      succeeds exactly on a non-empty document list; it then indexes one
      vector per document, in document order, and persists both. */
  lemma CreateAndSaveBuildsParallelIndex(db: VectorDB, documents: seq<string>, disk: Disk, o: Oracles)
    requires EmbedsWithDimension(o.embed, db.dimension)
    ensures var s := CreateAndSave(db, documents, disk, o);
      && (s.outcome.Ok? <==> |documents| > 0)
      && (s.outcome.Ok? ==>
            && Parallel(s.db)
            && s.db.index.vectors == o.embed(documents)
            && (forall k :: 0 <= k < |documents| ==> |s.db.index.vectors[k]| == db.dimension)
            && BothPresent(s.disk))
  {
    var rows := o.embed(documents);
    assert |rows| == |documents|;
    if |documents| > 0 {
      assert forall k :: 0 <= k < |rows| ==> rows[k] in rows;
    }
  }

  /** A failed rebuild of a loaded, non-empty store leaves it loaded with its
      old documents but an empty index, breaking `Parallel`: a later search
      can only report the index's answer for an empty index. */
  lemma FailedRebuildEmptiesIndex(db: VectorDB, documents: seq<string>, disk: Disk, o: Oracles)
    requires db.Loaded? && |db.documents| > 0
    requires Rectangular(o.embed(documents)) && !RowsFit(o.embed(documents), db.dimension)
    ensures var s := CreateAndSave(db, documents, disk, o);
      s.outcome == Err(DimensionMismatch) && s.db.IsLoaded() && s.db.documents == db.documents
      && s.db.index.vectors == [] && !Parallel(s.db) && s.disk == disk
  {
  }

  /** Embeddings of unequal widths fail before the index is replaced: the
      store and the disk are exactly as they were, whatever the store held. */
  lemma RaggedBuildChangesNothing(db: VectorDB, documents: seq<string>, disk: Disk, o: Oracles)
    requires !Rectangular(o.embed(documents))
    ensures CreateAndSave(db, documents, disk, o) == Step(db, disk, Err(RaggedEmbeddings))
    ensures Parallel(db) ==> Parallel(CreateAndSave(db, documents, disk, o).db)
  {
  }

  /** Persist, then load into any store: the reloaded store holds exactly the
      documents and index that were saved, so it answers every search exactly
      as the store that saved them. */
  lemma CreateThenLoadRoundTrip(db: VectorDB, documents: seq<string>, disk: Disk, o: Oracles, other: VectorDB, query: string, topK: int)
    requires CreateAndSave(db, documents, disk, o).outcome.Ok?
    ensures var saved := CreateAndSave(db, documents, disk, o);
      var loaded := Load(other, saved.disk);
      && loaded.outcome.Ok?
      && loaded.db.IsLoaded()
      && loaded.db.documents == documents
      && loaded.db.CurrentIndex() == saved.db.CurrentIndex()
      && Search(loaded.db, query, topK, o) == Search(saved.db, query, topK, o)
  {
  }

  /** `load` trusts the artifacts: the loaded store is `Parallel` exactly
      when the two files agree in size. */
  lemma LoadParallelIffArtifactsAgree(db: VectorDB, disk: Disk)
    requires BothPresent(disk)
    ensures Parallel(Load(db, disk).db) <==> |disk.indexFile.value.vectors| == |disk.documentsFile.value|
  {
  }
}
